=== FILE: README.md ===
# PR cleanup controller — Dafny model

This project models the decision logic of the state-aware cleanup controller in
`scripts/cleanup_controller.py`. When a pull request closes, the controller
resolves that pull request's sandbox catalog and SQL warehouse from the
Terraform state document. It then issues delete calls against the Databricks
management API and classifies each response.

The model has three layers, in the program's own order:

- **Resolver** (`get_pr_resources_from_state`). The state document is a typed
  datatype (`StateDoc.State`). The scan is a pure function that returns
  `Option<Resources>`, written as the source's two nested loops with an
  accumulator. `None` stands for every path where the source returns `None`:
  an unreadable file, a `KeyError` on a malformed instance, or no catalog found.
  An independent reference definition (`LastMatching` over `Inspected`, the
  inspected instances in document order) is proved equal to the scan.
- **Executor** (`cleanup_databricks_resources`). HTTP is replaced by an oracle
  `respond: Call -> Response` that gives what each call comes back with: a
  status from the API, or an exception raised by the HTTP client. The result
  is a trace of attempts. An answered attempt carries the call, the status and
  the outcome (`Deleted` only for exactly 200, `Failed(status)` otherwise). An
  aborted attempt is a call whose request raised. Nothing in the controller
  catches that exception, so it ends the run.
- **Handler** (`handle_pr_closed_event`). It composes the two layers. It runs
  the executor exactly when the resolver returns a record. A run whose trace
  ends in an aborted attempt is one where the exception escaped the handler.

Behaviour of the program worth knowing:

- Only status 200 counts as success. A 204 or any other 2xx is an error.
- A failed status on the catalog delete does not stop the warehouse delete.
  An exception on the catalog request does stop it.
- Matching is by substring containment. Each run deletes at most one catalog
  and one warehouse: the last matches in document order. So the run for PR 12
  may delete PR 123's catalog and warehouse instead of its own. This happens
  when PR 123's resources come later in the document, or when PR 12 has none
  (`Resolver.LongerPrNameMatches`, `Handler.ExamplePrefixCollision`).
- The program keeps no record of earlier runs. A redelivered event against
  the same state document sends the same delete calls again, and classifies
  whatever status comes back by the rule above
  (`Handler.RedeliverySendsSameCalls`). The exception is when the catalog
  request raised in one delivery and not in the other. A delivery that
  crashed on the catalog request never sent the warehouse delete, and its
  redelivery does (`Handler.RedeliveryAfterCrashSendsWarehouse`).

Files: `wrappers.dfy` (Option), `text.dfy` (substring test and decimal
rendering), `state.dfy` (state document), `resolver.dfy`, `executor.dfy`,
`handler.dfy`.

## Model

| member | source | states |
|---|---|---|
| `Text.ContainsIff` | scripts/cleanup_controller.py:35 | The executable substring test used for Python's `pattern in name` holds exactly when the pattern occurs at some position of the name. |
| `Text.DecimalRoundTrip` | scripts/cleanup_controller.py:35 | The rendering of the PR number spliced into the patterns reads back as the same number. |
| `Text.IntToDecimalInjective` | scripts/cleanup_controller.py:41 | Distinct PR numbers, negative ones included, render to distinct strings, so each PR gets its own pattern text. |
| `Resolver.Resolve` | scripts/cleanup_controller.py:44-54 | An unreadable state file yields `None` rather than an error. A returned record always holds a non-empty catalog name. |
| `Resolver.LastMatchingIsLast` | scripts/cleanup_controller.py:31-42 | When instance `i` matches the pattern and no later instance does, instance `i` is the one whose attribute is recorded. Later matches win. |
| `Resolver.LastMatchingNone` | scripts/cleanup_controller.py:31-42 | Nothing is recorded exactly when no inspected instance's name contains the pattern. |
| `Resolver.LastMatchingFound` | scripts/cleanup_controller.py:31-42 | Whatever is recorded comes from a matching instance with no match after it in document order. |
| `Resolver.VisitInstancesIsLastMatch` | scripts/cleanup_controller.py:33-42 | An inner loop raises exactly when an instance lacks `name`, or a matching warehouse lacks `id`. Otherwise it overwrites its field with the last match's name (catalog) or id (warehouse), and leaves the field unchanged when nothing matches. |
| `Resolver.VisitResourcesIsLastMatch` | scripts/cleanup_controller.py:31-42 | The whole scan fails exactly on a malformed document. Otherwise each field is the last match over all managed resources of exactly its type and their instances, in document order. |
| `Resolver.ResolveIsLastMatch` | scripts/cleanup_controller.py:15-54 | The resolver in full. It returns `None` on a shape error or when no catalog matched. Otherwise it returns the last matching catalog's name and the last matching warehouse's id (or no id). |
| `Resolver.ResolveNeedsCatalog` | scripts/cleanup_controller.py:44-47 | With no matching catalog instance the result is `None`, even when a warehouse matches. |
| `Resolver.ResolvedNamesComeFromMatches` | scripts/cleanup_controller.py:31-47 | A resolved catalog name is the `name` of an inspected catalog instance containing `sandbox_pr_<pr>`. A resolved warehouse value is the `id`, not the name, of an inspected warehouse instance whose name contains `pr_warehouse_<pr>`. |
| `Resolver.ResolveIgnoresIrrelevant` | scripts/cleanup_controller.py:31-42 | Data-source entries and resources of other types never affect the result. Removing them all leaves it unchanged. |
| `Resolver.LongerPrNameMatches` | scripts/cleanup_controller.py:35-41 | A name matching PR `10n+d` also matches PR `n`, because matching is by containment. |
| `Executor.EndpointInjective` | scripts/cleanup_controller.py:72-81 | Distinct calls give distinct request strings, as the controller builds them. The forced catalog delete string and the warehouse delete string never coincide. |
| `Executor.Classify` | scripts/cleanup_controller.py:74-86 | A response is a success exactly when its status is 200. Any other status, 2xx included, is an error that carries the code. |
| `Executor.Cleanup` | scripts/cleanup_controller.py:57-86 | No call is made without a non-empty catalog name. Otherwise the forced catalog delete is the first call. A warehouse delete follows as the second call exactly when the warehouse id is non-empty and the catalog request did not raise. There are at most two calls. Each answered call records its own status and is classified from it: `Deleted` for 200, otherwise `Failed` with that code. Only the last call can be aborted by an exception. |
| `Executor.CleanupCallsIgnoreStatuses` | scripts/cleanup_controller.py:72-82 | No HTTP status prevents the warehouse delete. Two runs whose one catalog request raises in both or in neither send the same calls, whatever statuses come back. |
| `Handler.HandlePrClosed` | scripts/cleanup_controller.py:89-104 | Cleanup runs exactly when the resolver returns a record, and never for an unreadable file. It runs on exactly the resolved record. The catalog delete comes first. The warehouse delete for the resolved id is second, exactly when the id is non-empty and the catalog request did not raise. Each answered call in the report records the status the API returned and its classification. The run crashes exactly when one of its requests raised. |
| `Handler.HandlerCallsFollowLastMatch` | scripts/cleanup_controller.py:99-102 | On a well-formed document, the first call is the delete of the last matching catalog. The delete of the last matching warehouse id follows when that id is non-empty and the catalog request did not raise. With no matching catalog there are no calls. |
| `Handler.NoCatalogNoCalls` | scripts/cleanup_controller.py:99-104 | A malformed document, or one without a matching catalog, leads to no delete call. |
| `Handler.EveryCallTargetsAMatch` | scripts/cleanup_controller.py:99-102 | Every delete sent targets a matching instance of the state document. |
| `Handler.RedeliverySendsSameCalls` | scripts/cleanup_controller.py:89-104 | Apart from an exception on the catalog request, the calls depend only on the PR number and the document. So a redelivered event sends the same deletes again, provided the resolved catalog's delete request raises in both deliveries or in neither. |
| `Handler.RedeliveryAfterCrashSendsWarehouse` | scripts/cleanup_controller.py:72-82 | When the first delivery's catalog request raised and the redelivery's is answered, with a warehouse id resolved: the first run crashed after the catalog delete alone, and the redelivery sends the catalog delete and then the warehouse delete. |
| `Handler.ExampleBothDeleted` | scripts/cleanup_controller.py:99-102 | PR 123 with catalog `sandbox_pr_123_sales` and warehouse `pr_warehouse_123` (id `wh-99`), both answered 200: the catalog is deleted first, then the warehouse by id. |
| `Handler.ExampleNoContentIsAnError` | scripts/cleanup_controller.py:74-86 | A 204 on the catalog delete is reported as an error, and the warehouse delete is still sent. |
| `Handler.ExampleCatalogRaises` | scripts/cleanup_controller.py:72-82 | When the catalog request raises, the run ends there and the warehouse delete is never sent. |
| `Handler.ExamplePrefixCollision` | scripts/cleanup_controller.py:35-42 | With only PR 123's resources in the document, the handler for PR 12 deletes PR 123's catalog and warehouse. |

## Left out

- HTTP transport: `requests.delete`, the bearer header, and the host. These are replaced by the response oracle and the request string (`Executor.Endpoint`). Response bodies are not carried.
- URL escaping. Names and ids are spliced into the request string unescaped (lines 72 and 81). `Executor.EndpointInjective` is about the string the controller builds. It assumes names hold no URL-reserved characters: a `#` in a catalog name would cut off `?force=true`, and percent-escapes could make two names reach the same URL.
- Environment configuration: the state file path, host and tokens (lines 9-13). These are process configuration, not logic.
- Reading and parsing the JSON file (lines 22-23). The parsed document is the input. Every read or parse failure is the single `Unreadable` input.
- Attribute values other than strings. A non-string `name` makes the source raise (null, a number) or test list or dict membership instead of substring containment. A non-string `id` is recorded as it is (line 42): a falsy one (null, `0`) sends no warehouse delete (line 80), as an empty string id does in the model, and a truthy one is put into the URL as its text. Terraform records both attributes as strings.
- Missing `mode`, `type`, `instances` or `attributes` keys where the scan reads them. These make the source return `None`, and are folded into `Unreadable`.
- `print` logging and the `__main__` simulation block (lines 107-122). These are output only.
- `scripts/generate_data.py`. It is data generation through Spark libraries and holds no cleanup logic.
- The program has no protection set, no explicit catalog or warehouse inputs, no per-resource outcome other than the status classification, and no timeout. None of these is modelled.

=== FILE: executor.dfy ===
/** The teardown step (`cleanup_databricks_resources`): at most two delete
    requests, catalog first, each classified by its HTTP status. The HTTP
    client is replaced by `respond`, which gives what a call comes back with:
    a status from the management API, or an exception raised by the client
    (a connection error, say), which nothing in the controller catches.
    Since a run issues each call at most once, a function of the call is as
    general as a stateful server. */
module Executor {
  import opened Wrappers
  import opened Resolver

  /** A delete request the controller can issue. */
  datatype Call = DeleteCatalog(name: string) | DeleteWarehouse(id: string)

  const CatalogPath := "/api/2.1/unity-catalog/catalogs/"
  const ForceQuery := "?force=true"
  const WarehousePath := "/api/2.0/sql/warehouses/"

  /** The request path and query string the controller builds for a call;
      the host is configuration and is not modelled. The catalog request
      string always ends in the forcing (recursive) query. Names and ids are
      spliced in unescaped, so what the server receives is this string only
      when they hold no URL-reserved characters. */
  function Endpoint(call: Call): string
  {
    match call
    case DeleteCatalog(name) => CatalogPath + name + ForceQuery
    case DeleteWarehouse(id) => WarehousePath + id
  }

  /** The API version in the path tells the two kinds of call apart. */
  lemma EndpointVersion(c: Call)
    ensures |Endpoint(c)| > 7
    ensures Endpoint(c)[7] == (if c.DeleteCatalog? then '1' else '0')
  {
  }

  /** The request string the controller builds determines the call. */
  lemma EndpointInjective(c1: Call, c2: Call)
    requires Endpoint(c1) == Endpoint(c2)
    ensures c1 == c2
  {
    EndpointVersion(c1);
    EndpointVersion(c2);
    var e := Endpoint(c1);
    if c1.DeleteCatalog? && c2.DeleteCatalog? {
      assert c1.name == e[|CatalogPath|..|e| - |ForceQuery|];
      assert c2.name == e[|CatalogPath|..|e| - |ForceQuery|];
    } else if c1.DeleteWarehouse? && c2.DeleteWarehouse? {
      assert c1.id == e[|WarehousePath|..];
      assert c2.id == e[|WarehousePath|..];
    }
  }

  datatype Outcome = Deleted | Failed(status: int)

  /** Only status 200 is success; every other code, 2xx included, is an error
      that carries the code. */
  function Classify(status: int): (o: Outcome)
    ensures o.Deleted? <==> status == 200
    ensures o.Failed? ==> o.status == status
  {
    if status == 200 then Deleted else Failed(status)
  }

  /** What `requests.delete` comes back with: a response carrying a status
      code, or an exception. */
  datatype Response = Status(code: int) | Raised

  /** One issued call: either answered, with its status and how that was
      classified, or aborted by an exception that ends the run. */
  datatype Attempt =
    | Answered(call: Call, status: int, outcome: Outcome)
    | Aborted(call: Call)

  function Issue(call: Call, respond: Call -> Response): Attempt
  {
    match respond(call)
    case Status(code) => Answered(call, code, Classify(code))
    case Raised => Aborted(call)
  }

  function Calls(trace: seq<Attempt>): (calls: seq<Call>)
    ensures |calls| == |trace|
    ensures forall i :: 0 <= i < |trace| ==> calls[i] == trace[i].call
  {
    seq(|trace|, i requires 0 <= i < |trace| => trace[i].call)
  }

  /** `cleanup_databricks_resources`: nothing without a non-empty catalog
      name; otherwise the forced catalog delete, then the warehouse delete
      when a non-empty warehouse id is present, unless the catalog request
      raised. */
  function Cleanup(resources: Option<Resources>, respond: Call -> Response): (trace: seq<Attempt>)
    ensures |trace| <= 2
    ensures |trace| == 0 <==> !(resources.Some? && Present(resources.value.catalogName))
    ensures |trace| >= 1 ==> trace[0].call == DeleteCatalog(resources.value.catalogName.value)
    ensures |trace| == 2 <==> resources.Some? && Present(resources.value.catalogName)
                              && Present(resources.value.warehouseId)
                              && respond(DeleteCatalog(resources.value.catalogName.value)).Status?
    ensures |trace| == 2 ==> trace[1].call == DeleteWarehouse(resources.value.warehouseId.value)
    ensures forall i :: 0 <= i < |trace| ==>
              && (trace[i].Answered? <==> respond(trace[i].call).Status?)
              && (trace[i].Answered? ==>
                    trace[i].status == respond(trace[i].call).code
                    && trace[i].outcome == Classify(trace[i].status))
    ensures forall i :: 0 <= i < |trace| - 1 ==> trace[i].Answered?
  {
    if resources.None? || !Present(resources.value.catalogName) then []
    else
      var catalog := Issue(DeleteCatalog(resources.value.catalogName.value), respond);
      if catalog.Answered? && Present(resources.value.warehouseId)
      then [catalog, Issue(DeleteWarehouse(resources.value.warehouseId.value), respond)]
      else [catalog]
  }

  /** No HTTP status prevents the warehouse delete: two runs whose one
      catalog request raises alike send the same calls, whatever statuses
      come back. Only an exception on the catalog request stops the run. */
  lemma CleanupCallsIgnoreStatuses(resources: Option<Resources>, respond1: Call -> Response, respond2: Call -> Response)
    requires resources.Some? && Present(resources.value.catalogName) ==>
               (respond1(DeleteCatalog(resources.value.catalogName.value)).Raised?
                <==> respond2(DeleteCatalog(resources.value.catalogName.value)).Raised?)
    ensures Calls(Cleanup(resources, respond1)) == Calls(Cleanup(resources, respond2))
  {
  }
}

=== FILE: handler.dfy ===
/** The entry point for a closed pull request (`handle_pr_closed_event`):
    resolve the pull request's resources from the state document, and tear
    them down only when the resolver found something. */
module Handler {
  import opened Wrappers
  import opened Text
  import opened StateDoc
  import opened Resolver
  import opened Executor

  /** What one run did: nothing, or the resources it resolved and the calls
      it issued for them. */
  datatype Report = NothingFound | CleanedUp(resources: Resources, trace: seq<Attempt>)

  /** The run ended in an exception from the HTTP client, which propagates
      out of the handler. */
  predicate Crashed(rep: Report)
  {
    rep.CleanedUp? && |rep.trace| > 0 && rep.trace[|rep.trace| - 1].Aborted?
  }

  /** The handler for a closed pull request (`handle_pr_closed_event`):
      cleanup runs only on a record the resolver returned, and on exactly
      that record; otherwise nothing is sent. */
  function HandlePrClosed(pr: int, state: State, respond: Call -> Response): (rep: Report)
    ensures rep.CleanedUp? <==> Resolve(pr, state).Some?
    ensures state.Unreadable? ==> rep.NothingFound?
    ensures rep.CleanedUp? ==>
              && rep.resources == Resolve(pr, state).value
              && 1 <= |rep.trace| <= 2
              && Present(rep.resources.catalogName)
              && rep.trace[0].call == DeleteCatalog(rep.resources.catalogName.value)
              && (|rep.trace| == 2 <==> Present(rep.resources.warehouseId) && respond(rep.trace[0].call).Status?)
              && (|rep.trace| == 2 ==> rep.trace[1].call == DeleteWarehouse(rep.resources.warehouseId.value))
              && (forall i :: 0 <= i < |rep.trace| ==>
                    && (rep.trace[i].Answered? <==> respond(rep.trace[i].call).Status?)
                    && (rep.trace[i].Answered? ==>
                          rep.trace[i].status == respond(rep.trace[i].call).code
                          && rep.trace[i].outcome == Classify(rep.trace[i].status)))
    ensures Crashed(rep) <==> rep.CleanedUp? && exists i :: 0 <= i < |rep.trace| && respond(rep.trace[i].call).Raised?
  {
    match Resolve(pr, state)
    case None => NothingFound
    case Some(found) => CleanedUp(found, Cleanup(Some(found), respond))
  }

  /** The delete requests a run sent, in order. */
  function IssuedCalls(rep: Report): seq<Call>
  {
    match rep
    case NothingFound => []
    case CleanedUp(_, trace) => Calls(trace)
  }

  /** A call is aimed at a matching instance of the state document: a catalog
      delete names a matching catalog instance, a warehouse delete carries the
      id of a matching warehouse instance. */
  ghost predicate TargetsMatch(pr: int, rs: seq<Resource>, call: Call)
  {
    match call
    case DeleteCatalog(name) =>
      exists inst :: inst in Inspected(rs, Catalog) && Matches(Catalog, pr, inst) && Recorded(Catalog, inst) == Some(name)
    case DeleteWarehouse(id) =>
      exists inst :: inst in Inspected(rs, Warehouse) && Matches(Warehouse, pr, inst) && Recorded(Warehouse, inst) == Some(id)
  }

  /** The calls of a run on a well-formed document: the forced delete of the
      last matching catalog if there is one, then the delete of the last
      matching warehouse if its id is non-empty and the catalog request did
      not raise; no call at all otherwise. */
  lemma HandlerCallsFollowLastMatch(pr: int, rs: seq<Resource>, respond: Call -> Response)
    requires WellShaped(pr, rs)
    ensures IssuedCalls(HandlePrClosed(pr, Parsed(rs), respond)) ==
              var catalog := RecordedOf(Catalog, LastMatching(Catalog, pr, Inspected(rs, Catalog)));
              var warehouse := RecordedOf(Warehouse, LastMatching(Warehouse, pr, Inspected(rs, Warehouse)));
              if catalog.None? then []
              else [DeleteCatalog(catalog.value)]
                   + (if Present(warehouse) && respond(DeleteCatalog(catalog.value)).Status?
                      then [DeleteWarehouse(warehouse.value)] else [])
  {
    ResolveIsLastMatch(pr, rs);
  }

  /** A malformed document, or one without a matching catalog, gets no call,
      even when a warehouse matches. */
  lemma NoCatalogNoCalls(pr: int, rs: seq<Resource>, respond: Call -> Response)
    requires !WellShaped(pr, rs) || forall i :: 0 <= i < |Inspected(rs, Catalog)| ==> !Matches(Catalog, pr, Inspected(rs, Catalog)[i])
    ensures IssuedCalls(HandlePrClosed(pr, Parsed(rs), respond)) == []
  {
    ResolveIsLastMatch(pr, rs);
    LastMatchingNone(Catalog, pr, Inspected(rs, Catalog));
  }

  /** Every delete a run sends is aimed at a matching instance of the state
      document. */
  lemma EveryCallTargetsAMatch(pr: int, state: State, respond: Call -> Response)
    ensures forall call :: call in IssuedCalls(HandlePrClosed(pr, state, respond)) ==>
              state.Parsed? && TargetsMatch(pr, state.resources, call)
  {
    ResolvedNamesComeFromMatches(pr, state);
  }

  /** Apart from an exception on the catalog request, the calls depend only
      on the pull request and the state document: a redelivered event against
      the same document sends the same deletes again, whatever statuses the
      first run received, provided its one catalog request raises in both
      deliveries or in neither. */
  lemma RedeliverySendsSameCalls(pr: int, state: State, respond1: Call -> Response, respond2: Call -> Response)
    requires Resolve(pr, state).Some? ==>
               (respond1(DeleteCatalog(Resolve(pr, state).value.catalogName.value)).Raised?
                <==> respond2(DeleteCatalog(Resolve(pr, state).value.catalogName.value)).Raised?)
    ensures IssuedCalls(HandlePrClosed(pr, state, respond1)) == IssuedCalls(HandlePrClosed(pr, state, respond2))
  {
  }

  /** A delivery that crashed on the catalog request never sent the warehouse
      delete; a redelivery whose catalog request is answered does send it.
      So redelivery after a crash sends one call more than the crashed run. */
  lemma RedeliveryAfterCrashSendsWarehouse(pr: int, state: State, crashed: Call -> Response, redelivered: Call -> Response)
    requires Resolve(pr, state).Some? && Present(Resolve(pr, state).value.warehouseId)
    requires crashed(DeleteCatalog(Resolve(pr, state).value.catalogName.value)).Raised?
    requires redelivered(DeleteCatalog(Resolve(pr, state).value.catalogName.value)).Status?
    ensures Crashed(HandlePrClosed(pr, state, crashed))
    ensures IssuedCalls(HandlePrClosed(pr, state, crashed))
              == [DeleteCatalog(Resolve(pr, state).value.catalogName.value)]
    ensures IssuedCalls(HandlePrClosed(pr, state, redelivered))
              == [DeleteCatalog(Resolve(pr, state).value.catalogName.value),
                  DeleteWarehouse(Resolve(pr, state).value.warehouseId.value)]
  {
  }

  // ---------------------------------------------------------------------------
  // Worked examples.
  // ---------------------------------------------------------------------------

  const SalesCatalog := Instance(map["name" := "sandbox_pr_123_sales"])
  const PrWarehouse := Instance(map["name" := "pr_warehouse_123", "id" := "wh-99"])
  const ExampleState := Parsed([
    Resource("managed", "databricks_catalog", [SalesCatalog]),
    Resource("managed", "databricks_sql_warehouse", [PrWarehouse])
  ])

  /** The example document's inspected instances, kind by kind. */
  lemma ExampleInspected()
    ensures Inspected(ExampleState.resources, Catalog) == [SalesCatalog]
    ensures Inspected(ExampleState.resources, Warehouse) == [PrWarehouse]
  {
    var rs := ExampleState.resources;
    assert Selects(Catalog, rs[0]) && !Selects(Warehouse, rs[0]);
    assert Selects(Warehouse, rs[1]) && !Selects(Catalog, rs[1]);
    assert rs[1..] == [rs[1]] && rs[1..][1..] == [];
    assert Inspected(rs[1..], Catalog) == [] + Inspected(rs[1..][1..], Catalog);
    assert Inspected(rs[1..], Warehouse) == [PrWarehouse] + Inspected(rs[1..][1..], Warehouse);
  }

  /** The patterns of PR 123, spelled out. */
  lemma ExamplePatterns()
    ensures Pattern(Catalog, 123) == "sandbox_pr_123"
    ensures Pattern(Warehouse, 123) == "pr_warehouse_123"
  {
  }

  /** Both example instances carry the patterns of PR 123, hence of PR 12. */
  lemma ExampleMatches(pr: int)
    requires pr == 123 || pr == 12
    ensures Matches(Catalog, pr, SalesCatalog) && Matches(Warehouse, pr, PrWarehouse)
  {
    ExamplePatterns();
    var sales := SalesCatalog.attributes["name"];
    var wh := PrWarehouse.attributes["name"];
    assert IsPrefix(Pattern(Catalog, 123), sales);
    ContainsPrefix(sales, Pattern(Catalog, 123));
    assert IsPrefix(Pattern(Warehouse, 123), wh);
    ContainsPrefix(wh, Pattern(Warehouse, 123));
    if pr == 12 {
      LongerPrNameMatches(Catalog, 12, 3, SalesCatalog);
      LongerPrNameMatches(Warehouse, 12, 3, PrWarehouse);
    }
  }

  /** The example document, read as the scan reads it. */
  lemma ExampleStateScan(pr: int)
    requires pr == 123 || pr == 12
    ensures Resolve(pr, ExampleState) == Some(Resources(Some("sandbox_pr_123_sales"), Some("wh-99")))
  {
    ExampleInspected();
    ExampleMatches(pr);
    var rs := ExampleState.resources;
    assert LastMatching(Catalog, pr, [SalesCatalog]) == Some(SalesCatalog) by {
      assert [SalesCatalog][1..] == [];
    }
    assert LastMatching(Warehouse, pr, [PrWarehouse]) == Some(PrWarehouse) by {
      assert [PrWarehouse][1..] == [];
    }
    assert WellShaped(pr, rs);
    ResolveIsLastMatch(pr, rs);
  }

  /** PR 123 with a matching catalog and warehouse, both deletes answered
      with 200: the catalog is deleted, then the warehouse by its id. */
  lemma ExampleBothDeleted()
    ensures HandlePrClosed(123, ExampleState, _ => Status(200)) ==
              CleanedUp(Resources(Some("sandbox_pr_123_sales"), Some("wh-99")),
                        [Answered(DeleteCatalog("sandbox_pr_123_sales"), 200, Deleted),
                         Answered(DeleteWarehouse("wh-99"), 200, Deleted)])
  {
    ExampleStateScan(123);
  }

  /** A 204 on the catalog is an error, and the warehouse delete still goes out. */
  lemma ExampleNoContentIsAnError()
    ensures HandlePrClosed(123, ExampleState, (c: Call) => if c.DeleteCatalog? then Status(204) else Status(200)) ==
              CleanedUp(Resources(Some("sandbox_pr_123_sales"), Some("wh-99")),
                        [Answered(DeleteCatalog("sandbox_pr_123_sales"), 204, Failed(204)),
                         Answered(DeleteWarehouse("wh-99"), 200, Deleted)])
  {
    ExampleStateScan(123);
  }

  /** An exception on the catalog request ends the run: the warehouse delete
      is never sent. */
  lemma ExampleCatalogRaises()
    ensures HandlePrClosed(123, ExampleState, (c: Call) => if c.DeleteCatalog? then Raised else Status(200)) ==
              CleanedUp(Resources(Some("sandbox_pr_123_sales"), Some("wh-99")),
                        [Aborted(DeleteCatalog("sandbox_pr_123_sales"))])
  {
    ExampleStateScan(123);
  }

  /** With only PR 123's resources in the document, the run for PR 12
      deletes PR 123's catalog and warehouse. */
  lemma ExamplePrefixCollision()
    ensures IssuedCalls(HandlePrClosed(12, ExampleState, _ => Status(200))) ==
              [DeleteCatalog("sandbox_pr_123_sales"), DeleteWarehouse("wh-99")]
  {
    ExampleStateScan(12);
  }
}

=== FILE: resolver.dfy ===
/** Which catalog and warehouse belong to a pull request, found by scanning
    the state document (`get_pr_resources_from_state`). */
module Resolver {
  import opened Wrappers
  import opened Text
  import opened StateDoc

  /** The `pr_resources` record: a catalog name and a warehouse id, each
      possibly absent. */
  datatype Resources = Resources(catalogName: Option<string>, warehouseId: Option<string>)

  const NoResources := Resources(None, None)

  /** The two resource kinds the scan looks for. */
  datatype Kind = Catalog | Warehouse

  function TypeName(k: Kind): string
  {
    match k
    case Catalog => "databricks_catalog"
    case Warehouse => "databricks_sql_warehouse"
  }

  /** The name fragment that ties an instance of kind `k` to pull request `pr`. */
  function Pattern(k: Kind, pr: int): string
  {
    match k
    case Catalog => "sandbox_pr_" + IntToDecimal(pr)
    case Warehouse => "pr_warehouse_" + IntToDecimal(pr)
  }

  /** The scan looks inside a resource for kind `k` only when it is managed and
      of exactly that type. */
  predicate Selects(k: Kind, r: Resource)
  {
    r.mode == "managed" && r.typeName == TypeName(k)
  }

  /** Python truthiness of an optional string: present and non-empty. */
  predicate Present(v: Option<string>)
  {
    v.Some? && v.value != ""
  }

  /** The attribute an instance of kind `k` contributes when it matches: a
      catalog's name, a warehouse's id. */
  function Recorded(k: Kind, inst: Instance): Option<string>
  {
    match k
    case Catalog => Get(inst.attributes, "name")
    case Warehouse => Get(inst.attributes, "id")
  }

  function Field(k: Kind, acc: Resources): Option<string>
  {
    match k
    case Catalog => acc.catalogName
    case Warehouse => acc.warehouseId
  }

  function WithField(k: Kind, acc: Resources, v: Option<string>): Resources
  {
    match k
    case Catalog => acc.(catalogName := v)
    case Warehouse => acc.(warehouseId := v)
  }

  // ---------------------------------------------------------------------------
  // The scan as written: one pass in document order, `None` for a KeyError.
  // ---------------------------------------------------------------------------

  /** One iteration of an inner loop: read the instance's name, and on a match
      overwrite the recorded field. A missing `name`, or a missing `id` on a
      matching warehouse, raises, which the caller turns into `None`. */
  function VisitInstance(k: Kind, pr: int, acc: Resources, inst: Instance): Option<Resources>
  {
    if "name" !in inst.attributes then None
    else if !Contains(inst.attributes["name"], Pattern(k, pr)) then Some(acc)
    else
      match Recorded(k, inst)
      case None => None
      case Some(v) => Some(WithField(k, acc, Some(v)))
  }

  /** An inner loop over the instances of one resource. */
  function VisitInstances(k: Kind, pr: int, acc: Resources, insts: seq<Instance>): Option<Resources>
    decreases |insts|
  {
    if |insts| == 0 then Some(acc)
    else
      match VisitInstance(k, pr, acc, insts[0])
      case None => None
      case Some(next) => VisitInstances(k, pr, next, insts[1..])
  }

  /** One iteration of the outer loop: the catalog test, then the warehouse test. */
  function VisitResource(pr: int, acc: Resources, r: Resource): Option<Resources>
  {
    var afterCatalog :=
      if Selects(Catalog, r) then VisitInstances(Catalog, pr, acc, r.instances) else Some(acc);
    match afterCatalog
    case None => None
    case Some(a) =>
      if Selects(Warehouse, r) then VisitInstances(Warehouse, pr, a, r.instances) else Some(a)
  }

  /** The outer loop over the resource list. */
  function VisitResources(pr: int, acc: Resources, rs: seq<Resource>): Option<Resources>
    decreases |rs|
  {
    if |rs| == 0 then Some(acc)
    else
      match VisitResource(pr, acc, rs[0])
      case None => None
      case Some(next) => VisitResources(pr, next, rs[1..])
  }

  /** `get_pr_resources_from_state`: the scan's record, kept only when it
      names a catalog; `None` when the document is unreadable or malformed. */
  function Resolve(pr: int, state: State): (r: Option<Resources>)
    ensures state.Unreadable? ==> r.None?
    ensures r.Some? ==> Present(r.value.catalogName)
  {
    match state
    case Unreadable => None
    case Parsed(rs) =>
      match VisitResources(pr, NoResources, rs)
      case None => None
      case Some(found) => if Present(found.catalogName) then Some(found) else None
  }

  // ---------------------------------------------------------------------------
  // A reference description of the same result.
  // ---------------------------------------------------------------------------

  /** The instances of the resources the scan inspects for kind `k`, in
      document order. */
  function Selected(k: Kind, r: Resource): seq<Instance>
  {
    if Selects(k, r) then r.instances else []
  }

  function Inspected(rs: seq<Resource>, k: Kind): seq<Instance>
    decreases |rs|
  {
    if |rs| == 0 then [] else Selected(k, rs[0]) + Inspected(rs[1..], k)
  }

  predicate Matches(k: Kind, pr: int, inst: Instance)
  {
    "name" in inst.attributes && Contains(inst.attributes["name"], Pattern(k, pr))
  }

  /** An inspected instance the scan can read without raising. */
  predicate Shaped(k: Kind, pr: int, inst: Instance)
  {
    "name" in inst.attributes && (Matches(k, pr, inst) ==> Recorded(k, inst).Some?)
  }

  predicate AllShaped(k: Kind, pr: int, insts: seq<Instance>)
  {
    forall inst :: inst in insts ==> Shaped(k, pr, inst)
  }

  predicate WellShaped(pr: int, rs: seq<Resource>)
  {
    AllShaped(Catalog, pr, Inspected(rs, Catalog)) && AllShaped(Warehouse, pr, Inspected(rs, Warehouse))
  }

  /** The last instance in `insts` that matches: a match further along
      overrides every earlier one. */
  function LastMatching(k: Kind, pr: int, insts: seq<Instance>): Option<Instance>
    decreases |insts|
  {
    if |insts| == 0 then None
    else Override(if Matches(k, pr, insts[0]) then Some(insts[0]) else None,
                  LastMatching(k, pr, insts[1..]))
  }

  function RecordedOf(k: Kind, found: Option<Instance>): Option<string>
  {
    match found
    case None => None
    case Some(inst) => Recorded(k, inst)
  }

  // ---------------------------------------------------------------------------
  // LastMatching really is the last match.
  // ---------------------------------------------------------------------------

  /** When instance `i` matches and nothing after it does, it is the one found. */
  lemma {:induction false} LastMatchingIsLast(k: Kind, pr: int, insts: seq<Instance>, i: int)
    requires 0 <= i < |insts| && Matches(k, pr, insts[i])
    requires forall j :: i < j < |insts| ==> !Matches(k, pr, insts[j])
    ensures LastMatching(k, pr, insts) == Some(insts[i])
    decreases |insts|
  {
    if i == 0 {
      LastMatchingNone(k, pr, insts[1..]);
    } else {
      LastMatchingIsLast(k, pr, insts[1..], i - 1);
    }
  }

  /** Nothing is found exactly when no instance matches. */
  lemma {:induction false} LastMatchingNone(k: Kind, pr: int, insts: seq<Instance>)
    ensures LastMatching(k, pr, insts).None? <==> forall i :: 0 <= i < |insts| ==> !Matches(k, pr, insts[i])
    decreases |insts|
  {
    if |insts| > 0 {
      LastMatchingNone(k, pr, insts[1..]);
      assert forall i :: 1 <= i < |insts| ==> insts[i] == insts[1..][i - 1];
    }
  }

  /** What is found is a matching instance with no match after it. */
  lemma {:induction false} LastMatchingFound(k: Kind, pr: int, insts: seq<Instance>)
    requires LastMatching(k, pr, insts).Some?
    ensures exists i :: 0 <= i < |insts| && insts[i] == LastMatching(k, pr, insts).value
                        && Matches(k, pr, insts[i])
                        && forall j :: i < j < |insts| ==> !Matches(k, pr, insts[j])
    decreases |insts|
  {
    var rest := LastMatching(k, pr, insts[1..]);
    if rest.Some? {
      LastMatchingFound(k, pr, insts[1..]);
      var i :| 0 <= i < |insts[1..]| && insts[1..][i] == rest.value && Matches(k, pr, insts[1..][i])
                 && forall j :: i < j < |insts[1..]| ==> !Matches(k, pr, insts[1..][j]);
      assert insts[i + 1] == insts[1..][i];
      assert forall j :: i + 1 < j < |insts| ==> insts[j] == insts[1..][j - 1];
    } else {
      LastMatchingNone(k, pr, insts[1..]);
      assert forall j :: 0 < j < |insts| ==> insts[j] == insts[1..][j - 1];
    }
  }

  /** Searching a concatenation: a match in the second part wins. */
  lemma {:induction false} LastMatchingAppend(k: Kind, pr: int, a: seq<Instance>, b: seq<Instance>)
    ensures LastMatching(k, pr, a + b) == Override(LastMatching(k, pr, a), LastMatching(k, pr, b))
    decreases |a|
  {
    if |a| == 0 {
      assert a + b == b;
    } else {
      assert (a + b)[1..] == a[1..] + b;
      LastMatchingAppend(k, pr, a[1..], b);
    }
  }

  // ---------------------------------------------------------------------------
  // The scan computes the reference result.
  // ---------------------------------------------------------------------------

  /** An inner loop fails exactly on a malformed instance, and otherwise
      overwrites its field with the last match, if any. */
  lemma {:induction false} VisitInstancesIsLastMatch(k: Kind, pr: int, acc: Resources, insts: seq<Instance>)
    ensures VisitInstances(k, pr, acc, insts) ==
              if AllShaped(k, pr, insts)
              then Some(WithField(k, acc, Override(Field(k, acc), RecordedOf(k, LastMatching(k, pr, insts)))))
              else None
    decreases |insts|
  {
    if |insts| > 0 {
      var x := insts[0];
      assert insts == [x] + insts[1..];
      if Shaped(k, pr, x) {
        var next := VisitInstance(k, pr, acc, x).value;
        VisitInstancesIsLastMatch(k, pr, next, insts[1..]);
        if AllShaped(k, pr, insts[1..]) {
          LastMatchingRecorded(k, pr, insts[1..]);
        }
      }
    }
  }

  /** One outer-loop step, in the same terms. */
  lemma VisitResourceIsLastMatch(pr: int, acc: Resources, r: Resource)
    ensures VisitResource(pr, acc, r) ==
              if AllShaped(Catalog, pr, Selected(Catalog, r)) && AllShaped(Warehouse, pr, Selected(Warehouse, r))
              then Some(Resources(
                     Override(acc.catalogName, RecordedOf(Catalog, LastMatching(Catalog, pr, Selected(Catalog, r)))),
                     Override(acc.warehouseId, RecordedOf(Warehouse, LastMatching(Warehouse, pr, Selected(Warehouse, r))))))
              else None
  {
    VisitInstancesIsLastMatch(Catalog, pr, acc, r.instances);
    if Selects(Catalog, r) && AllShaped(Catalog, pr, r.instances) {
      var a := VisitInstances(Catalog, pr, acc, r.instances).value;
      VisitInstancesIsLastMatch(Warehouse, pr, a, r.instances);
    } else {
      VisitInstancesIsLastMatch(Warehouse, pr, acc, r.instances);
    }
  }

  /** In a well-shaped list, a match found always carries its attribute. */
  lemma LastMatchingRecorded(k: Kind, pr: int, insts: seq<Instance>)
    requires AllShaped(k, pr, insts)
    ensures LastMatching(k, pr, insts).Some? ==> RecordedOf(k, LastMatching(k, pr, insts)).Some?
  {
    if LastMatching(k, pr, insts).Some? {
      LastMatchingFound(k, pr, insts);
      var i :| 0 <= i < |insts| && insts[i] == LastMatching(k, pr, insts).value && Matches(k, pr, insts[i]);
      assert insts[i] in insts;
    }
  }

  /** `RecordedOf` distributes over the override of two searches when the
      instances found are shaped. */
  lemma RecordedOfOverride(k: Kind, pr: int, a: seq<Instance>, b: seq<Instance>)
    requires AllShaped(k, pr, b)
    ensures RecordedOf(k, Override(LastMatching(k, pr, a), LastMatching(k, pr, b)))
         == Override(RecordedOf(k, LastMatching(k, pr, a)), RecordedOf(k, LastMatching(k, pr, b)))
  {
    LastMatchingRecorded(k, pr, b);
  }

  /** The whole outer loop: it fails exactly on a malformed document, and
      otherwise each field holds the last match across all inspected
      instances of its kind, in document order. */
  lemma {:induction false} VisitResourcesIsLastMatch(pr: int, acc: Resources, rs: seq<Resource>)
    ensures VisitResources(pr, acc, rs) ==
              if WellShaped(pr, rs)
              then Some(Resources(
                     Override(acc.catalogName, RecordedOf(Catalog, LastMatching(Catalog, pr, Inspected(rs, Catalog)))),
                     Override(acc.warehouseId, RecordedOf(Warehouse, LastMatching(Warehouse, pr, Inspected(rs, Warehouse))))))
              else None
    decreases |rs|
  {
    if |rs| > 0 {
      var r := rs[0];
      VisitResourceIsLastMatch(pr, acc, r);
      if AllShaped(Catalog, pr, Selected(Catalog, r)) && AllShaped(Warehouse, pr, Selected(Warehouse, r)) {
        var next := VisitResource(pr, acc, r).value;
        VisitResourcesIsLastMatch(pr, next, rs[1..]);
        LastMatchingAppend(Catalog, pr, Selected(Catalog, r), Inspected(rs[1..], Catalog));
        LastMatchingAppend(Warehouse, pr, Selected(Warehouse, r), Inspected(rs[1..], Warehouse));
        if WellShaped(pr, rs[1..]) {
          RecordedOfOverride(Catalog, pr, Selected(Catalog, r), Inspected(rs[1..], Catalog));
          RecordedOfOverride(Warehouse, pr, Selected(Warehouse, r), Inspected(rs[1..], Warehouse));
        }
      }
    }
  }

  // ---------------------------------------------------------------------------
  // Consequences for `get_pr_resources_from_state`.
  // ---------------------------------------------------------------------------

  /** The resolver in full: `None` for a malformed document or when no
      catalog matched; otherwise the name of the last matching catalog and the
      id of the last matching warehouse, if any. */
  lemma ResolveIsLastMatch(pr: int, rs: seq<Resource>)
    ensures Resolve(pr, Parsed(rs)) ==
              var catalog := RecordedOf(Catalog, LastMatching(Catalog, pr, Inspected(rs, Catalog)));
              if WellShaped(pr, rs) && catalog.Some?
              then Some(Resources(catalog, RecordedOf(Warehouse, LastMatching(Warehouse, pr, Inspected(rs, Warehouse)))))
              else None
  {
    VisitResourcesIsLastMatch(pr, NoResources, rs);
    var found := LastMatching(Catalog, pr, Inspected(rs, Catalog));
    if found.Some? {
      LastMatchingFound(Catalog, pr, Inspected(rs, Catalog));
      ContainsLength(found.value.attributes["name"], Pattern(Catalog, pr));
    }
  }

  /** The catalog is the anchor: with no matching catalog instance the result
      is `None`, whatever warehouses match. */
  lemma ResolveNeedsCatalog(pr: int, rs: seq<Resource>)
    requires forall i :: 0 <= i < |Inspected(rs, Catalog)| ==> !Matches(Catalog, pr, Inspected(rs, Catalog)[i])
    ensures Resolve(pr, Parsed(rs)).None?
  {
    ResolveIsLastMatch(pr, rs);
    LastMatchingNone(Catalog, pr, Inspected(rs, Catalog));
  }

  /** A resolved catalog name is the name of an inspected catalog instance
      that contains the pull request's pattern, and a resolved warehouse id is
      the id of an inspected warehouse instance whose name contains its
      pattern. */
  lemma ResolvedNamesComeFromMatches(pr: int, state: State)
    ensures Resolve(pr, state).Some? ==>
              && state.Parsed?
              && (exists inst :: inst in Inspected(state.resources, Catalog) && Matches(Catalog, pr, inst)
                                 && Recorded(Catalog, inst) == Resolve(pr, state).value.catalogName)
              && (Resolve(pr, state).value.warehouseId.Some? ==>
                    exists inst :: inst in Inspected(state.resources, Warehouse) && Matches(Warehouse, pr, inst)
                                   && Recorded(Warehouse, inst) == Resolve(pr, state).value.warehouseId)
  {
    if state.Parsed? {
      var rs := state.resources;
      ResolveIsLastMatch(pr, rs);
      if Resolve(pr, state).Some? {
        var cs := Inspected(rs, Catalog);
        LastMatchingFound(Catalog, pr, cs);
        var i :| 0 <= i < |cs| && cs[i] == LastMatching(Catalog, pr, cs).value && Matches(Catalog, pr, cs[i]);
        assert cs[i] in cs;
        var ws := Inspected(rs, Warehouse);
        if LastMatching(Warehouse, pr, ws).Some? {
          LastMatchingFound(Warehouse, pr, ws);
          var j :| 0 <= j < |ws| && ws[j] == LastMatching(Warehouse, pr, ws).value && Matches(Warehouse, pr, ws[j]);
          assert ws[j] in ws;
        }
      }
    }
  }

  /** The resources the scan looks at: managed, of one of the two types. */
  function Relevant(rs: seq<Resource>): seq<Resource>
    decreases |rs|
  {
    if |rs| == 0 then []
    else if Selects(Catalog, rs[0]) || Selects(Warehouse, rs[0]) then [rs[0]] + Relevant(rs[1..])
    else Relevant(rs[1..])
  }

  lemma {:induction false} InspectedRelevant(rs: seq<Resource>, k: Kind)
    ensures Inspected(Relevant(rs), k) == Inspected(rs, k)
    decreases |rs|
  {
    if |rs| > 0 {
      InspectedRelevant(rs[1..], k);
      if Selects(Catalog, rs[0]) || Selects(Warehouse, rs[0]) {
        assert ([rs[0]] + Relevant(rs[1..]))[1..] == Relevant(rs[1..]);
      }
    }
  }

  /** Data sources and resources of other types never affect the result:
      dropping them all leaves it unchanged. */
  lemma ResolveIgnoresIrrelevant(pr: int, rs: seq<Resource>)
    ensures Resolve(pr, Parsed(Relevant(rs))) == Resolve(pr, Parsed(rs))
  {
    InspectedRelevant(rs, Catalog);
    InspectedRelevant(rs, Warehouse);
    ResolveIsLastMatch(pr, rs);
    ResolveIsLastMatch(pr, Relevant(rs));
  }

  /** Matching is by substring: a name carrying the pattern of pull request
      `10 * n + d` also carries the pattern of pull request `n`, so the scan
      for PR 12 also picks up the resources of PRs 120 to 129, 1200, and so on. */
  lemma LongerPrNameMatches(k: Kind, n: nat, d: nat, inst: Instance)
    requires n > 0 && d < 10
    requires Matches(k, 10 * n + d, inst)
    ensures Matches(k, n, inst)
  {
    AppendDigit(n, d);
    var longer := Pattern(k, 10 * n + d);
    var shorter := Pattern(k, n);
    assert longer == shorter + [DigitChar(d)];
    assert longer[..|shorter|] == shorter;
    ContainsPrefix(longer, shorter);
    ContainsTransitive(inst.attributes["name"], longer, shorter);
  }
}

=== FILE: state.dfy ===
/** The infrastructure state document the controller reads: an ordered list of
    resources, each with a mode ("managed" or "data"), a resource type, and
    instances whose attributes are string-valued. */
module StateDoc {

  datatype Instance = Instance(attributes: map<string, string>)

  datatype Resource = Resource(mode: string, typeName: string, instances: seq<Instance>)

  /** `Unreadable` stands for every way the state file fails before or while
      its resource list is read: the file is missing, it is not JSON, its top
      level is not an object, or an entry lacks a key the scan reads (`mode`
      always; `type` when the entry is managed; `instances` when it is a
      managed catalog or warehouse; `attributes` on an instance it visits). A
      key the scan never reads may be given any value here. A document
      without a `resources` key is `Parsed([])`. A missing `name` or `id`
      inside an instance's attributes is not folded in: the scan's own
      handling of it is modelled. */
  datatype State = Unreadable | Parsed(resources: seq<Resource>)
}

=== FILE: text.dfy ===
/** The two string operations the controller relies on: Python's substring
    test `p in s` and Python's `str(n)` for the pull-request number that is
    spliced into the name patterns. */
module Text {

  predicate IsPrefix(p: string, s: string)
  {
    |p| <= |s| && s[..|p|] == p
  }

  /** Python's `p in s` on two strings: `p` occurs somewhere in `s`. */
  predicate Contains(s: string, p: string)
    decreases |s|
  {
    IsPrefix(p, s) || (|s| > 0 && Contains(s[1..], p))
  }

  /** `p` occurs in `s` starting at position `i`. */
  ghost predicate OccursAt(s: string, p: string, i: int)
  {
    0 <= i && i + |p| <= |s| && s[i..i + |p|] == p
  }

  /** `Contains` is exactly "there is a position where `p` occurs". */
  lemma {:induction false} ContainsIff(s: string, p: string)
    ensures Contains(s, p) <==> exists i :: OccursAt(s, p, i)
    decreases |s|
  {
    if IsPrefix(p, s) {
      assert OccursAt(s, p, 0);
    } else if |s| > 0 {
      ContainsIff(s[1..], p);
      if Contains(s[1..], p) {
        var i :| OccursAt(s[1..], p, i);
        assert s[1..][i..i + |p|] == s[i + 1..i + 1 + |p|];
        assert OccursAt(s, p, i + 1);
      }
      if exists i :: OccursAt(s, p, i) {
        var i :| OccursAt(s, p, i);
        if i > 0 {
          assert s[1..][i - 1..i - 1 + |p|] == s[i..i + |p|];
          assert OccursAt(s[1..], p, i - 1);
        }
      }
    }
  }

  /** A string contains every string that it contains somewhere inside. */
  lemma ContainsTransitive(s: string, t: string, p: string)
    requires Contains(s, t) && Contains(t, p)
    ensures Contains(s, p)
  {
  }

  /** A string that contains `p` is at least as long as `p`. */
  lemma ContainsLength(s: string, p: string)
    requires Contains(s, p)
    ensures |p| <= |s|
  {
  }

  /** Every string contains each of its prefixes. */
  lemma ContainsPrefix(s: string, p: string)
    requires IsPrefix(p, s)
    ensures Contains(s, p)
  {
  }

  predicate IsDigit(c: char)
  {
    '0' <= c <= '9'
  }

  function DigitChar(d: nat): (c: char)
    requires d < 10
    ensures IsDigit(c)
  {
    (('0' as int) + d) as char
  }

  function DigitValue(c: char): (d: nat)
    requires IsDigit(c)
    ensures d < 10 && DigitChar(d) == c
  {
    (c as int) - ('0' as int)
  }

  /** Decimal digits of `n`, most significant first, without leading zeros. */
  function NatToDecimal(n: nat): (s: string)
    ensures |s| >= 1
    ensures forall i :: 0 <= i < |s| ==> IsDigit(s[i])
    ensures s[0] == '0' ==> n == 0
  {
    if n < 10 then [DigitChar(n)] else NatToDecimal(n / 10) + [DigitChar(n % 10)]
  }

  /** The number a string of decimal digits denotes. */
  function DecimalValue(s: string): nat
    requires forall i :: 0 <= i < |s| ==> IsDigit(s[i])
  {
    if |s| == 0 then 0 else DecimalValue(s[..|s| - 1]) * 10 + DigitValue(s[|s| - 1])
  }

  /** Reading back the digits of `n` gives `n`. */
  lemma {:induction false} DecimalRoundTrip(n: nat)
    ensures DecimalValue(NatToDecimal(n)) == n
  {
    if n >= 10 {
      var s := NatToDecimal(n);
      assert s[..|s| - 1] == NatToDecimal(n / 10);
      DecimalRoundTrip(n / 10);
    }
  }

  /** Python's `str(n)` for an integer `n`. */
  function IntToDecimal(n: int): string
  {
    if n < 0 then "-" + NatToDecimal(-n) else NatToDecimal(n)
  }

  /** Distinct naturals have distinct decimal renderings. */
  lemma NatToDecimalInjective(a: nat, b: nat)
    requires NatToDecimal(a) == NatToDecimal(b)
    ensures a == b
  {
    DecimalRoundTrip(a);
    DecimalRoundTrip(b);
  }

  /** Distinct integers have distinct decimal renderings. */
  lemma IntToDecimalInjective(a: int, b: int)
    requires IntToDecimal(a) == IntToDecimal(b)
    ensures a == b
  {
    if a < 0 && b < 0 {
      assert IntToDecimal(a)[1..] == NatToDecimal(-a);
      assert IntToDecimal(b)[1..] == NatToDecimal(-b);
      NatToDecimalInjective(-a, -b);
    } else if a >= 0 && b >= 0 {
      NatToDecimalInjective(a, b);
    }
  }

  /** Appending a digit to a positive number appends it to its rendering. */
  lemma AppendDigit(n: nat, d: nat)
    requires n > 0 && d < 10
    ensures NatToDecimal(10 * n + d) == NatToDecimal(n) + [DigitChar(d)]
  {
  }
}

=== FILE: wrappers.dfy ===
/** Optional values, standing in for Python's `None`-or-value. */
module Wrappers {

  datatype Option<+T> = None | Some(value: T)

  /** The later value wins when there is one: what an assignment that may or
      may not run does to a variable holding `earlier`. */
  function Override<T>(earlier: Option<T>, later: Option<T>): Option<T>
  {
    if later.Some? then later else earlier
  }

  /** Lookup in a map that reports a missing key as `None`. */
  function Get<K, V>(m: map<K, V>, k: K): Option<V>
  {
    if k in m then Some(m[k]) else None
  }
}
